=== FILE: README.md ===
# Questionnaire responses: a Dafny model

This project models the response-handling core of a single-operator
questionnaire tool (`main.py`). Each response holds a participant number, a
set of Likert-style ratings and some free-text open answers. The model covers:

- the participant sort key and the identifier pattern;
- validation and coercion when a response is saved;
- the response list and its cursor: start-up, New, Delete, Previous, Next,
  choosing an id, and the sorted id list;
- score normalisation (missing values and the flip for negative questions)
  and the heatmap matrix;
- the box-plot grouping and per-participant means;
- the CSV table built by Export.

Everything is pure functions over immutable datatypes. The file layout:

| file | module | contents |
|---|---|---|
| `wrappers.dfy` | `Wrappers` | `Option` |
| `text.dfy` | `Text` | `str.strip`, `str.isdigit`, `int(...)`, `str(n)`, `str.lower`, Python string ordering |
| `participant_key.dfy` | `ParticipantKey` | `participant_sort_key`, the default identifier pattern, key ordering |
| `sorting.dfy` | `Sorting` | `sorted(..., key=participant_sort_key)` as a stable insertion sort |
| `responses.dfy` | `Responses` | stored values, responses, configuration, blank responses, rating coercion |
| `store.dfy` | `Store` | response list and cursor, and every operation on them, including Save |
| `scores.dfy` | `Scores` | normalisation, scores keyed by participant number, heatmap |
| `boxplot.dfy` | `BoxPlot` | first-character groups, `unique()`, NaN-skipping means |
| `export.dfy` | `Export` | CSV header and rows |
| `visualization.dfy` | `Visualization` | the data behind both charts |

Modelling choices:

- The JSON keys `rating_<n>` and `open_<n>` are represented by the number `n`.
- A stored rating is `Int`, `Str` or `Other`. `Other` stands for any other
  JSON value (float, null, list or object). The heatmap reader (main.py:405-410)
  and the model's means treat it as not a number. A JSON boolean is an `Int`, because the heatmap reader's
  `isinstance(raw_val, int)` (main.py:405) accepts `bool`.
- The form's contents are an explicit `Form` value: the id entry, one text per
  rating question and one per open question.
- The cursor is an explicit field of the `Store.State` record.
- Missing scores (`NaN`) are `None`.

Some behaviours of the code are easy to misread; the model follows the code:

- The key `("zzz", inf)` of a malformed id does not sort after every
  well-formed id. Any id whose lower-cased letters are above "zzz", such as
  "zzzz1", sorts after it (`ParticipantKey.SentinelPlacement`).
- Participant numbers are not required to be unique. For a repeated number,
  the heatmap shows the scores of the last response carrying it, in every
  column with that number.
- The box-plot group is the first character of the id with its case kept. It
  is not the lower-cased letter prefix.
- The polarity flip is `(end + 1) - v`. This maps the scale onto itself only
  when the scale starts at 1 (`Scores.ReflectStaysOnScaleIff`).
- `$` in a Python regular expression also matches just before one final
  newline. So a stored id `"a1\n"` gets the key `("a", 1)`.
- On a scale that starts below 0, the drop-down offers negative choices such
  as "-1". `"-1".isdigit()` is false, so the choice is saved as text and its
  heatmap score is missing (`Scores.NegativeChoiceScoresMissing`).

## Model

| member | source | states |
|---|---|---|
| `Text.Trim` | main.py:233 | stripping leaves no whitespace at either end of the result |
| `Text.TrimIsInnerSlice` | main.py:233 | the stripped text is the input minus whitespace at its two ends: a slice with only whitespace before and after it |
| `Text.TrimEmptyIff` | main.py:241-242 | an input counts as unanswered exactly when it is all whitespace |
| `Text.TrimIdempotent` | main.py:233 | stripping an already stripped id changes nothing |
| `Text.DigitsValue` | main.py:246 | Python's `int(s)` on a string of ASCII digits, read most significant digit first |
| `Text.NatToDecimal` | main.py:134 | Python's `str(n)` on n ≥ 0: decimal digits with no superfluous leading zero |
| `Text.DecimalRoundTrip` | main.py:134 | `int(str(n)) == n` for n ≥ 0, so a drop-down choice `str(x)` with x ≥ 0 reads back as x |
| `Text.CanonicalRoundTrip` | main.py:245-246 | `str(int(s)) == s` for digit text without superfluous leading zeros |
| `Text.LeadingZeroIgnored` | main.py:36 | leading zeros do not change the number `int(...)` reads |
| `Text.StrLtTransitive` | main.py:179 | Python's string order, used for key groups, is transitive |
| `Text.StrLtTrichotomy` | main.py:179 | any two group strings are equal or ordered one way |
| `Text.ProperPrefixIsSmaller` | main.py:39 | a proper prefix sorts first, so "zzz" < "zzzz" |
| `ParticipantKey.MatchesIdPattern` | main.py:33 | `re.match` of `^[a-zA-Z]+\d+$` succeeds (also the default pattern tested at main.py:234): one or more ASCII letters, then one or more ASCII digits, then at most one final newline |
| `ParticipantKey.Parse` | main.py:32-39 | a key is finite exactly when the id matches letters-then-digits; otherwise it is the sentinel ("zzz", inf) |
| `ParticipantKey.ParseLettersDigits` | main.py:33-37 | letters L then digits D match the pattern and get key (lower(L), int(D)) |
| `ParticipantKey.ParseFinalNewline` | main.py:33-37 | one final newline after letters and digits still matches, and the key is the same as without it |
| `ParticipantKey.ParseFiniteShape` | main.py:33-39 | an id gets a finite key only if it is letters then digits (plus at most one final newline) |
| `ParticipantKey.KeyLeTotal` | main.py:179 | any two keys are comparable |
| `ParticipantKey.KeyLeTransitive` | main.py:179 | the key order is transitive |
| `ParticipantKey.KeyLeAntisymmetric` | main.py:179 | keys ordered both ways are equal |
| `ParticipantKey.SentinelPlacement` | main.py:38-39 | the sentinel follows a well-formed key iff its group is at most "zzz", and precedes it iff the group is above "zzz" |
| `ParticipantKey.EqualKeysExamples` | main.py:35-36 | "A1" and "a1" have equal keys; so do "a01" and "a1" |
| `ParticipantKey.NumericOrderExample` | main.py:36-37 | "a2" sorts before "a10" (numeric, not textual) |
| `ParticipantKey.GroupOrderExample` | main.py:35-37 | "a10" sorts before "b1" |
| `ParticipantKey.SentinelExamples` | main.py:38-39 | "zzz9" sorts before the sentinel and "zzzz1" after it |
| `ParticipantKey.MalformedExamples` | main.py:38-39 | "a-1", "" and "12" get the sentinel |
| `Sorting.Insert` | main.py:179 | inserting adds exactly one occurrence of the new id |
| `Sorting.InsertStableSame` | main.py:179 | an inserted id goes in front of the ids already there with the same key |
| `Sorting.InsertStableOther` | main.py:179 | inserting an id leaves the order of the ids with any other key unchanged |
| `Sorting.InsertSorted` | main.py:179 | inserting into a key-sorted list keeps it key-sorted |
| `Sorting.InsertAfterAll` | main.py:179 | an id whose key is above every key in the list is inserted at the end |
| `Sorting.SortBy` | main.py:179 | sorting keeps exactly the same ids, each as often as before |
| `Sorting.SortBySorted` | main.py:179 | the sorted list is nondecreasing by key |
| `Sorting.SortByStable` | main.py:179 | ids with equal keys keep their input order |
| `Sorting.SortDescendingThree` | main.py:179 | three ids given in strictly descending key order come out reversed |
| `Sorting.SortIds` | main.py:179 | the result is a permutation of the ids, nondecreasing by key, and stable for ids with equal keys |
| `Sorting.SortIsPermutation` | main.py:179 | sorting keeps the length and the set of ids |
| `Sorting.SortExample` | main.py:179 | ["b2", "a10", "a2"] sorts to ["a2", "a10", "b2"] |
| `Responses.Ids` | main.py:178 | the id list follows the response list position by position |
| `Responses.Blank` | main.py:219-225 | a new response has an empty id and "" in every configured rating and open slot |
| `Responses.Coerce` | main.py:245-248 | a rating is stored as an integer exactly when it is digit text, and the integer is the value `int(...)` reads; otherwise the text is kept unchanged |
| `Responses.ChoiceStoredAsInt` | main.py:134 | a drop-down choice `str(x)` with x ≥ 0 is saved as the integer x |
| `Responses.RatingSlots` | main.py:239-248 | the saved ratings have keys 1..N, each the coerced stripped input |
| `Responses.StrippedSlots` | main.py:249-256 | the saved open answers have keys 1..M, each the stripped input |
| `Responses.CoerceKeepsValue` | main.py:245-246 | printing a saved integer gives back its digit text exactly when that text had no superfluous leading zero |
| `Store.NewResponse` | main.py:213-227 | New appends one blank response, keeps the others, and puts the cursor on the new one |
| `Store.Init` | main.py:75-81 | start-up keeps a loaded list with cursor 0, or creates one blank response when nothing was loaded |
| `Store.DeleteCurrent` | main.py:267-276 | Delete shifts later responses down and clamps the cursor to the new last index; deleting the only response leaves one blank at cursor 0 |
| `Store.DeleteRemovesCurrent` | main.py:269 | exactly the current response is removed |
| `Store.Previous` | main.py:279-282 | moves back by one, or does nothing at the first response; the cursor stays in range |
| `Store.Next` | main.py:285-288 | moves forward by one, or does nothing at the last response; the cursor stays in range |
| `Store.PreviousUndoesNext` | main.py:279-288 | Next then Previous, away from the end, returns to the same response |
| `Store.NextUndoesPrevious` | main.py:279-288 | Previous then Next, away from the start, returns to the same response |
| `Store.FirstIndexOf` | main.py:190-194 | finds the first response with exactly that id, or reports none |
| `Store.SelectParticipant` | main.py:188-194 | choosing an id moves the cursor to its first match; with no match nothing changes |
| `Store.ParticipantList` | main.py:177-180 | the drop-down lists every stored id once per response, sorted by key, stable among equal keys |
| `Store.CheckForm` | main.py:233-255 | the save is blocked by an id that fails the pattern, else (with forced answers) by a blank rating, else by a blank open answer; it passes exactly when none of these applies |
| `Store.SavedResponse` | main.py:233-260 | the saved response holds the stripped id, rating keys 1..N with the coerced stripped inputs, and open-answer keys 1..M with the stripped inputs |
| `Store.ReplaceCurrent` | main.py:257-260 | the current response is overwritten; the other responses and the cursor stay as they were |
| `Store.SaveCurrent` | main.py:232-261 | the error is the one the checks find; any failure leaves the store unchanged; success replaces only the current response with the saved one |
| `Store.SavedIdHasFiniteKey` | main.py:233-234 | a saved id never gets the sentinel key |
| `Store.SaveIdempotent` | main.py:257-261 | saving the same form twice gives the same store as saving once |
| `Store.ForcedBlankRatingRejected` | main.py:241-244 | with forced answers, a whitespace-only rating blocks the save and changes nothing |
| `Store.UnforcedSaveAccepts` | main.py:238-256 | without forced answers, a save succeeds exactly when the id matches the pattern |
| `Scores.AsScore` | main.py:405-410 | an integer passes, ASCII digit text is read with `int(...)`, anything else is missing |
| `Scores.Reflect` | main.py:412 | the polarity flip `(end + 1) - v` of a negative question, the same one the box plot applies at main.py:366 |
| `Scores.Normalise` | main.py:403-413 | there is one score per configured question |
| `Scores.MissingIff` | main.py:404-410 | a score is missing iff its slot is absent, holds non-digit text, or holds a non-integer JSON value |
| `Scores.PresentScore` | main.py:405-412 | a positive question scores the stored number; a negative question's score reflects back to it |
| `Scores.PolarityFlip` | main.py:411-412 | marking a question negative reflects a present score and leaves a missing one missing; reflecting twice is the identity |
| `Scores.ReflectExample` | main.py:411-412 | on scale 1..5, a negative question's raw 2 (integer or text) becomes 4 |
| `Scores.ReflectStaysOnScaleIff` | main.py:362 | `(end + 1) - v` maps start..end onto itself iff start is 1 |
| `Scores.NegativeChoiceScoresMissing` | main.py:245-248 | a negative drop-down choice `str(-x)` is not digit text, so it is saved as that text and its score reads missing |
| `Scores.BlankAllMissing` | main.py:404-410 | a blank response scores missing on every question |
| `Scores.SavedScoreMissingIff` | main.py:245-248 | after a save, a score is present iff the stripped input was digits; a question added later reads missing |
| `Scores.LastIndexOf` | main.py:399-414 | finds the last response carrying an id |
| `Scores.ScoresById` | main.py:398-414 | the score dictionary has exactly the stored ids as keys, each mapped to the scores of the last response with that id |
| `Scores.HeatmapIds` | main.py:394-397 | the participant axis is a stable, key-sorted permutation of the stored ids |
| `Scores.EveryColumnScored` | main.py:394-416 | the participant axis has one entry per response, and each entry has a full row of scores in the dictionary |
| `Scores.Heatmap` | main.py:415-416 | the matrix has one row per question and one column per response |
| `Scores.HeatmapCell` | main.py:414-416 | each cell is the question's score for the last response carrying that column's id |
| `BoxPlot.GroupOf` | main.py:356 | `.str[0]`: the first character of the id, and missing (pandas NaN) for the empty id |
| `BoxPlot.Labels` | main.py:356 | the group column follows the response list |
| `BoxPlot.FirstIndex` | main.py:368 | finds the first occurrence of a value |
| `BoxPlot.Unique` | main.py:368 | `unique()` yields each group label once and no other value |
| `BoxPlot.UniqueFirstAppearanceOrder` | main.py:368 | groups come in the order of their first appearance |
| `BoxPlot.MembersOf` | main.py:369 | a group's rows are the responses whose first character is its label, each as often as it occurs in the list; the NaN label selects none |
| `BoxPlot.MembersOfAppend` | main.py:369 | the group filter of a concatenation is the filter of each part in turn, so the members keep their list order |
| `BoxPlot.Mean` | main.py:370 | a mean is missing exactly when every score is missing |
| `BoxPlot.ParticipantMean` | main.py:370 | the mean of a participant's present normalised scores, missing when none is present |
| `BoxPlot.FirstIndexExtend` | main.py:368 | appending a value does not move the first occurrence of a value already present |
| `BoxPlot.CountZeroIffAllMissing` | main.py:370 | no score is counted exactly when all are missing |
| `BoxPlot.SumBounds` | main.py:370 | the sum of n present scores between lo and hi lies between lo*n and hi*n |
| `BoxPlot.MeanWithinBounds` | main.py:370 | a mean lies between the bounds of the present scores |
| `BoxPlot.MeanSkipsMissing` | main.py:370 | one present and one missing score average to the present one |
| `BoxPlot.BoxOf` | main.py:369-370 | a group's box holds, for each member (in the order `MembersOfAppend` fixes), the mean of its present normalised scores |
| `BoxPlot.BoxGroups` | main.py:367-370 | one box per distinct label, in `unique()` order, each holding every member's mean of present normalised scores |
| `BoxPlot.ExactlyOneBox` | main.py:356-370 | a response with a non-empty id is in exactly one box, the one for its first character; an empty id is in none |
| `Export.Header` | main.py:309-313 | "Participant Number", then "Rating i" for i in 1..N, then "Open Answer j" for j in 1..M |
| `Export.Row` | main.py:315-323 | the id, then `rating_i`, then `open_j`, each "" when absent |
| `Export.CsvTable` | main.py:292-294 | there is nothing to export exactly when there are no responses |
| `Export.ColumnsLineUp` | main.py:309-323 | the table is rectangular, with one row per response, and every value sits under its own heading |
| `Export.HeadingsDistinct` | main.py:309-313 | no two headings are the same |
| `Export.BlankRowEmpty` | main.py:219-225 | a blank response exports as a row of empty cells |
| `Visualization.Visualize` | main.py:344-347 | nothing is visualised for an empty list; otherwise, when the box-plot step does not raise, the heatmap is questions x participants |

## Left out

- Windows, widgets, dialogs, `ScrolledFrame`, and the delete confirmation. These are user interface; only the confirmed Delete is modelled.
- `load_config`, `load_responses`, `save_responses`, and the file writes in Export. These are file I/O. A missing or unreadable responses file gives an empty list; this is represented only by `Store.Init` accepting an empty list.
- CSV quoting by the `csv` library, and the plain-text export format. The first is foreign-library behaviour and the second is output formatting. The same library writes a stored JSON boolean as "True" or "False", while `Export.Row` hands it on as the `Int` 1 or 0; the text rendering of cell values is not modelled.
- Chart rendering, colour maps, saving plots, and the custom-code tab. The custom-code tab executes arbitrary user code.
- A configured `participant_regex` other than the default `^[a-zA-Z]+\d+$`. Arbitrary regular expressions are not modelled.
- `settings.py`. It is a configuration-editing form and holds no response logic.
- Unicode digits. Python's `\d`, `str.isdigit` and `int` also accept non-ASCII digits; the model admits only `0`-`9`.
- `Text.Lower`: lowers only ASCII letters, while `Text.Trim` uses Python's full whitespace set. The identifier letters are ASCII by their pattern, so this affects nothing that reaches a key.
- `Visualization.Visualize`: always builds both charts. In the source, an exception in the box-plot step (main.py:355-370) ends the whole visualisation before the heatmap (main.py:392-416) is built. Cases that raise include: `(end + 1) - ""` (or any other text, list or object) in a negative question's column at main.py:366, which a freshly created blank response already triggers; and a negative question `rating_i` that is not among the first response's rating keys, whose column `df["rating_i"]` does not exist. Exceptions are not modelled.
- `BoxPlot.ParticipantMean`: averages the normalised scores of the configured questions. The source instead averages pandas columns taken from the first response's keys. Those columns keep digit text as text, and `(end + 1) - ""` raises on an empty negative slot. This pandas behaviour is not modelled.
- `Scores.Heatmap`: cells are exact integers. The source converts them to floating point.
- `Store.SaveCurrent`: a configuration without a `rating_settings` section makes every save with a valid id raise `KeyError` at main.py:237 and change nothing. `Config` always has that section, so this error path is not modelled.
- Storage-write failures and their user messages.

=== FILE: boxplot.dfy ===
/**
 * The box plot's data: responses grouped by the FIRST CHARACTER of their
 * participant number (case kept), groups in order of first appearance, each
 * participant contributing the mean of their present normalised scores.
 */
module BoxPlot {
  import opened Wrappers
  import opened Responses
  import opened Scores

  /** `participant_number.str[0]`; pandas yields NaN (here None) for the empty string. */
  function GroupOf(id: string): Option<char> {
    if |id| > 0 then Some(id[0]) else None
  }

  /** The `Group` column, in list order. */
  function Labels(rs: seq<Response>): (ls: seq<Option<char>>)
    ensures |ls| == |rs|
    ensures forall j :: 0 <= j < |rs| ==> ls[j] == GroupOf(rs[j].participant)
  {
    seq(|rs|, j requires 0 <= j < |rs| => GroupOf(rs[j].participant))
  }

  /** Position of the first occurrence of `x` in `s`. */
  function FirstIndex<T(==)>(s: seq<T>, x: T): (i: nat)
    requires x in s
    ensures i < |s| && s[i] == x
    ensures forall j :: 0 <= j < i ==> s[j] != x
  {
    if s[0] == x then 0 else 1 + FirstIndex(s[1..], x)
  }

  /** pandas' `unique()`: each distinct value once, in order of first appearance. */
  function Unique<T(==,!new)>(s: seq<T>): (u: seq<T>)
    ensures forall x :: x in u <==> x in s
    ensures forall i, j :: 0 <= i < j < |u| ==> u[i] != u[j]
  {
    if s == [] then []
    else
      var u := Unique(s[..|s| - 1]);
      assert s == s[..|s| - 1] + [s[|s| - 1]];
      if s[|s| - 1] in u then u else u + [s[|s| - 1]]
  }

  /** Appending to a sequence does not move the first occurrence of a value already in it. */
  lemma FirstIndexExtend<T>(s: seq<T>, x: T, y: T)
    requires y in s
    ensures FirstIndex(s + [x], y) == FirstIndex(s, y)
  {
    var b := FirstIndex(s, y);
    assert (s + [x])[b] == y;
    assert forall j :: 0 <= j < b ==> (s + [x])[j] == s[j];
  }

  /** The distinct values come out in the order in which they first occur. */
  lemma {:induction false} UniqueFirstAppearanceOrder<T(!new)>(s: seq<T>)
    ensures forall i, j :: 0 <= i < j < |Unique(s)| ==>
              FirstIndex(s, Unique(s)[i]) < FirstIndex(s, Unique(s)[j])
  {
    if s != [] {
      var s' := s[..|s| - 1];
      var x := s[|s| - 1];
      var u' := Unique(s');
      var u := Unique(s);
      UniqueFirstAppearanceOrder(s');
      forall y | y in s' ensures FirstIndex(s, y) == FirstIndex(s', y) {
        FirstIndexExtend(s', x, y);
        assert s == s' + [x];
      }
      forall i, j | 0 <= i < j < |u| ensures FirstIndex(s, u[i]) < FirstIndex(s, u[j]) {
        assert u[i] in s';
        if j < |u'| {
          assert u[j] == u'[j] && u[i] == u'[i];
        } else {
          assert u[j] == x && x !in s';
          assert FirstIndex(s, x) == |s| - 1;
        }
      }
    }
  }

  /**
   * The rows `df[df["Group"] == group]`, in list order. A NaN group equals
   * nothing, not even itself, so it selects no rows.
   */
  function MembersOf(rs: seq<Response>, group: Option<char>): (ms: seq<Response>)
    ensures group.None? ==> ms == []
    ensures forall r :: r in ms <==> r in rs && group.Some? && GroupOf(r.participant) == group
    ensures forall r :: multiset(ms)[r] ==
              (if group.Some? && GroupOf(r.participant) == group then multiset(rs)[r] else 0)
  {
    if rs == [] then []
    else
      assert rs == [rs[0]] + rs[1..];
      (if group.Some? && GroupOf(rs[0].participant) == group then [rs[0]] else [])
      + MembersOf(rs[1..], group)
  }

  /** Filtering a concatenation filters each part in turn, so members keep their list order. */
  lemma {:induction false} MembersOfAppend(a: seq<Response>, b: seq<Response>, group: Option<char>)
    ensures MembersOf(a + b, group) == MembersOf(a, group) + MembersOf(b, group)
  {
    if a == [] {
      assert a + b == b;
      assert MembersOf(a, group) == [];
      EmptyConcat(MembersOf(b, group));
    } else {
      var h := if group.Some? && GroupOf(a[0].participant) == group then [a[0]] else [];
      SplitHead(a, b);
      assert MembersOf(a + b, group) == h + MembersOf(a[1..] + b, group);
      MembersOfAppend(a[1..], b, group);
      ConcatAssociative(h, MembersOf(a[1..], group), MembersOf(b, group));
    }
  }

  // ---------------------------------------------------------------------
  // Means that skip missing scores
  // ---------------------------------------------------------------------

  /** Sum of the present scores. */
  function Sum(xs: seq<Option<int>>): int {
    if xs == [] then 0 else (if xs[0].Some? then xs[0].value else 0) + Sum(xs[1..])
  }

  /** Number of present scores. */
  function Count(xs: seq<Option<int>>): nat {
    if xs == [] then 0 else (if xs[0].Some? then 1 else 0) + Count(xs[1..])
  }

  /** pandas' row mean with NaN skipped; missing when no score is present. */
  function Mean(xs: seq<Option<int>>): (m: Option<real>)
    ensures m.None? <==> forall i :: 0 <= i < |xs| ==> xs[i].None?
  {
    CountZeroIffAllMissing(xs);
    if Count(xs) == 0 then None else Some(Sum(xs) as real / Count(xs) as real)
  }

  lemma {:induction false} CountZeroIffAllMissing(xs: seq<Option<int>>)
    ensures Count(xs) == 0 <==> forall i :: 0 <= i < |xs| ==> xs[i].None?
  {
    if xs != [] {
      CountZeroIffAllMissing(xs[1..]);
      assert forall i :: 1 <= i < |xs| ==> xs[i] == xs[1..][i - 1];
    }
  }

  lemma {:induction false} SumBounds(xs: seq<Option<int>>, lo: int, hi: int)
    requires forall i :: 0 <= i < |xs| && xs[i].Some? ==> lo <= xs[i].value <= hi
    ensures lo * Count(xs) <= Sum(xs) <= hi * Count(xs)
  {
    if xs != [] {
      var rest := xs[1..];
      assert forall i :: 0 <= i < |rest| ==> rest[i] == xs[i + 1];
      SumBounds(rest, lo, hi);
      if xs[0].Some? {
        AddBounds(xs[0].value, Sum(rest), Count(rest), lo, hi);
      }
    }
  }

  /** Adding one more value between `lo` and `hi` keeps a sum of `n` such values in bounds. */
  lemma AddBounds(v: int, s: int, n: int, lo: int, hi: int)
    requires lo <= v <= hi && lo * n <= s <= hi * n
    ensures lo * (1 + n) <= v + s <= hi * (1 + n)
  {
    assert lo * (1 + n) == lo + lo * n;
    assert hi * (1 + n) == hi + hi * n;
  }

  /** A mean lies between the smallest and largest present score. */
  lemma MeanWithinBounds(xs: seq<Option<int>>, lo: int, hi: int)
    requires forall i :: 0 <= i < |xs| && xs[i].Some? ==> lo <= xs[i].value <= hi
    requires Mean(xs).Some?
    ensures lo as real <= Mean(xs).value <= hi as real
  {
    SumBounds(xs, lo, hi);
    QuotientBounds(Sum(xs), Count(xs), lo, hi);
  }

  lemma QuotientBounds(s: int, c: int, lo: int, hi: int)
    requires c > 0 && lo * c <= s <= hi * c
    ensures lo as real <= s as real / c as real <= hi as real
  {
    var cr := c as real;
    assert (lo * c) as real == lo as real * cr;
    assert (hi * c) as real == hi as real * cr;
    assert lo as real * cr <= s as real <= hi as real * cr;
  }

  /** One present and one missing score average to the present one. */
  lemma MeanSkipsMissing(a: int)
    ensures Mean([Some(a), None]) == Some(a as real)
    ensures Mean([None, Some(a)]) == Some(a as real)
  {
    var missing: seq<Option<int>> := [None];
    assert [Some(a), None][1..] == missing && missing[1..] == [];
    assert [None, Some(a)][1..] == [Some(a)] && [Some(a)][1..] == [];
    assert Count([Some(a), None]) == 1 && Sum([Some(a), None]) == a;
    assert Count([None, Some(a)]) == 1 && Sum([None, Some(a)]) == a;
  }

  /** A participant's box-plot value: the mean of their present normalised scores. */
  function ParticipantMean(r: Response, cfg: Config): Option<real> {
    Mean(Normalise(r, cfg))
  }

  // ---------------------------------------------------------------------
  // The groups
  // ---------------------------------------------------------------------

  datatype BoxGroup = BoxGroup(group: Option<char>, means: seq<Option<real>>)

  /**
   * One box per distinct group, in order of first appearance, holding the
   * mean of each member's present normalised scores.
   */
  function BoxGroups(rs: seq<Response>, cfg: Config): (gs: seq<BoxGroup>)
    ensures |gs| == |Unique(Labels(rs))|
    ensures forall g :: 0 <= g < |gs| ==> gs[g].group == Unique(Labels(rs))[g]
    ensures forall g :: 0 <= g < |gs| ==> |gs[g].means| == |MembersOf(rs, gs[g].group)|
    ensures forall g, i :: 0 <= g < |gs| && 0 <= i < |gs[g].means| ==>
              gs[g].means[i] == Mean(Normalise(MembersOf(rs, gs[g].group)[i], cfg))
  {
    var ls := Unique(Labels(rs));
    seq(|ls|, g requires 0 <= g < |ls| => BoxOf(rs, cfg, ls[g]))
  }

  /** The box of one group: each member's mean, in list order. */
  function BoxOf(rs: seq<Response>, cfg: Config, group: Option<char>): (b: BoxGroup)
    ensures b.group == group && |b.means| == |MembersOf(rs, group)|
    ensures forall i :: 0 <= i < |b.means| ==> b.means[i] == Mean(Normalise(MembersOf(rs, group)[i], cfg))
  {
    var ms := MembersOf(rs, group);
    BoxGroup(group, seq(|ms|, i requires 0 <= i < |ms| => ParticipantMean(ms[i], cfg)))
  }

  /**
   * Every response with a non-empty participant number lands in exactly one
   * box, the one labelled with its first character; a response with an empty
   * number is in no box.
   */
  lemma ExactlyOneBox(rs: seq<Response>, cfg: Config, j: nat)
    requires j < |rs|
    ensures var gs := BoxGroups(rs, cfg);
            && (|rs[j].participant| > 0 ==>
                  exists g :: 0 <= g < |gs| && gs[g].group == Some(rs[j].participant[0])
                              && rs[j] in MembersOf(rs, gs[g].group))
            && (forall g, g' :: 0 <= g < g' < |gs| ==> gs[g].group != gs[g'].group)
            && (|rs[j].participant| == 0 ==> forall g :: 0 <= g < |gs| ==> rs[j] !in MembersOf(rs, gs[g].group))
  {
    var gs := BoxGroups(rs, cfg);
    var ls := Unique(Labels(rs));
    if |rs[j].participant| > 0 {
      var c := rs[j].participant[0];
      assert Labels(rs)[j] == Some(c);
      assert Some(c) in ls;
      var g :| 0 <= g < |ls| && ls[g] == Some(c);
      assert gs[g].group == Some(c);
    }
  }

  // ---------------------------------------------------------------------
  // Sequence facts used by MembersOfAppend (general, not box-plot specific)
  // ---------------------------------------------------------------------

  lemma SplitHead<T>(a: seq<T>, b: seq<T>)
    requires a != []
    ensures (a + b)[0] == a[0] && (a + b)[1..] == a[1..] + b
  {
  }

  lemma EmptyConcat<T>(x: seq<T>)
    ensures [] + x == x
  {
  }

  lemma ConcatAssociative<T>(x: seq<T>, y: seq<T>, z: seq<T>)
    ensures x + (y + z) == (x + y) + z
  {
  }
}

=== FILE: export.dfy ===
/**
 * The CSV export's table: a header `Participant Number, Rating 1..N,
 * Open Answer 1..M` and one row per response, in list order, every row
 * reading `rating_<i>` / `open_<j>` with "" for an absent slot.
 */
module Export {
  import opened Wrappers
  import opened Text
  import opened Responses

  const ParticipantHeading: string := "Participant Number"

  function RatingHeading(i: nat): string {
    "Rating " + NatToDecimal(i)
  }

  function OpenHeading(j: nat): string {
    "Open Answer " + NatToDecimal(j)
  }

  /** The header row for `n` rating questions and `m` open questions. */
  function Header(n: nat, m: nat): (h: seq<string>)
    ensures |h| == 1 + n + m
    ensures h[0] == ParticipantHeading
    ensures forall i: nat :: IsSlot(i, n) ==> h[i] == RatingHeading(i)
    ensures forall j: nat :: IsSlot(j, m) ==> h[n + j] == OpenHeading(j)
  {
    [ParticipantHeading]
    + seq(n, i requires 0 <= i < n => RatingHeading(i + 1))
    + seq(m, j requires 0 <= j < m => OpenHeading(j + 1))
  }

  /** One response's row: its id, then each rating, then each open answer. */
  function Row(r: Response, n: nat, m: nat): (row: seq<Value>)
    ensures |row| == 1 + n + m
    ensures row[0] == Str(r.participant)
    ensures forall i: nat :: IsSlot(i, n) ==> row[i] == RatingAt(r, i)
    ensures forall j: nat :: IsSlot(j, m) ==> row[n + j] == Str(OpenAt(r, j))
  {
    [Str(r.participant)]
    + seq(n, i requires 0 <= i < n => RatingAt(r, i + 1))
    + seq(m, j requires 0 <= j < m => Str(OpenAt(r, j + 1)))
  }

  /** The whole table, header first; nothing to export when there are no responses. */
  function CsvTable(rs: seq<Response>, cfg: Config): (t: Option<seq<seq<Value>>>)
    ensures t.None? <==> rs == []
  {
    if rs == [] then None
    else
      var n, m := |cfg.questions|, |cfg.openQuestions|;
      var h := Header(n, m);
      Some([seq(|h|, c requires 0 <= c < |h| => Str(h[c]))]
           + seq(|rs|, j requires 0 <= j < |rs| => Row(rs[j], n, m)))
  }

  /**
   * The table is rectangular, has one row per response after the header, and
   * every value sits under its own heading: the id under "Participant
   * Number", `rating_i` under "Rating i", `open_j` under "Open Answer j".
   */
  lemma ColumnsLineUp(rs: seq<Response>, cfg: Config, row: nat)
    requires row < |rs|
    ensures var t := CsvTable(rs, cfg).value;
            var n, m := |cfg.questions|, |cfg.openQuestions|;
            && |t| == |rs| + 1
            && (forall k :: 0 <= k < |t| ==> |t[k]| == 1 + n + m)
            && t[0][0] == Str(ParticipantHeading) && t[row + 1][0] == Str(rs[row].participant)
            && (forall i: nat :: IsSlot(i, n) ==>
                  t[0][i] == Str(RatingHeading(i)) && t[row + 1][i] == RatingAt(rs[row], i))
            && (forall j: nat :: IsSlot(j, m) ==>
                  t[0][n + j] == Str(OpenHeading(j)) && t[row + 1][n + j] == Str(OpenAt(rs[row], j)))
  {
  }

  /** No two headings are the same text. */
  lemma HeadingsDistinct(n: nat, m: nat)
    ensures forall a, b :: 0 <= a < b < |Header(n, m)| ==> Header(n, m)[a] != Header(n, m)[b]
  {
    var h := Header(n, m);
    forall a, b | 0 <= a < b < |h| ensures h[a] != h[b] {
      if a == 0 {
        assert h[a][0] == 'P' && h[b][0] != 'P';
      } else if b <= n {
        if h[a] == h[b] {
          assert NatToDecimal(a) == h[a][7..] == h[b][7..] == NatToDecimal(b);
          DecimalInjective(a, b);
        }
      } else if a <= n {
        assert h[a][0] == 'R' && h[b][0] == 'O';
      } else {
        if h[a] == h[b] {
          assert NatToDecimal(a - n) == h[a][12..] == h[b][12..] == NatToDecimal(b - n);
          DecimalInjective(a - n, b - n);
        }
      }
    }
  }

  /** A blank response exports as a row of empty cells. */
  lemma BlankRowEmpty(cfg: Config)
    ensures forall c :: 0 <= c < |Row(Blank(cfg), |cfg.questions|, |cfg.openQuestions|)| ==>
              Row(Blank(cfg), |cfg.questions|, |cfg.openQuestions|)[c] == Str("")
  {
    var n, m := |cfg.questions|, |cfg.openQuestions|;
    var row := Row(Blank(cfg), n, m);
    forall c | 0 <= c < |row| ensures row[c] == Str("") {
      if 1 <= c <= n {
        assert IsSlot(c, n);
      } else if c > n {
        assert IsSlot(c - n, m);
      }
    }
  }
}

=== FILE: participant_key.dfy ===
/**
 * The participant sort key: an identifier of the shape `^([a-zA-Z]+)(\d+)$`
 * orders by (lower-cased letters, numeric value of the digits); anything
 * else gets the fixed pair ("zzz", infinity). The same shape, without the
 * groups, is the default identifier pattern checked when a response is saved.
 */
module ParticipantKey {
  import opened Text

  /** The numeric half of a key: a natural number or Python's `float('inf')`. */
  datatype Num = Fin(n: nat) | Inf

  /** A key is compared as a Python tuple: group first, then number. */
  datatype Key = Key(group: string, num: Num)

  /** The key of every identifier that does not have the letters-then-digits shape. */
  const Sentinel: Key := Key("zzz", Inf)

  predicate NumLt(a: Num, b: Num) {
    match a
    case Inf => false
    case Fin(x) => b.Inf? || x < b.n
  }

  /** Python's tuple `<` on keys. */
  predicate KeyLt(a: Key, b: Key) {
    StrLt(a.group, b.group) || (a.group == b.group && NumLt(a.num, b.num))
  }

  predicate KeyLe(a: Key, b: Key) {
    a == b || KeyLt(a, b)
  }

  // ---------------------------------------------------------------------
  // Matching the identifier shape
  // ---------------------------------------------------------------------

  /** Length of the leading run of `[a-zA-Z]` letters (the greedy `[a-zA-Z]+`). */
  function LetterRun(s: string): (n: nat)
    ensures n <= |s|
    ensures forall i :: 0 <= i < n ==> IsLetter(s[i])
    ensures n < |s| ==> !IsLetter(s[n])
  {
    if |s| > 0 && IsLetter(s[0]) then 1 + LetterRun(s[1..]) else 0
  }

  /** `$` in a Python regular expression matches at the end or just before one final newline. */
  function DropFinalNewline(t: string): string {
    if |t| > 0 && t[|t| - 1] == '\n' then t[..|t| - 1] else t
  }

  /** `re.match(r'^[a-zA-Z]+\d+$', s)` succeeds (ASCII digits only). */
  predicate MatchesIdPattern(s: string) {
    var n := LetterRun(s);
    n > 0 && IsDecimal(DropFinalNewline(s[n..]))
  }

  /** The sort key of a participant identifier. */
  function Parse(s: string): (k: Key)
    ensures k.num.Inf? <==> !MatchesIdPattern(s)
    ensures k.num.Inf? ==> k == Sentinel
  {
    var n := LetterRun(s);
    var digits := DropFinalNewline(s[n..]);
    if n > 0 && IsDecimal(digits) then Key(Lower(s[..n]), Fin(DigitsValue(digits))) else Sentinel
  }

  // ---------------------------------------------------------------------
  // What Parse computes, stated on the shape of the identifier
  // ---------------------------------------------------------------------

  lemma {:induction false} LetterRunOfLetters(l: string, rest: string)
    requires forall i :: 0 <= i < |l| ==> IsLetter(l[i])
    requires |rest| > 0 ==> !IsLetter(rest[0])
    ensures LetterRun(l + rest) == |l|
  {
    if |l| > 0 {
      assert (l + rest)[1..] == l[1..] + rest;
      LetterRunOfLetters(l[1..], rest);
    }
  }

  /** Letters followed by digits get the key (lower-cased letters, value of the digits). */
  lemma ParseLettersDigits(l: string, d: string)
    requires IsLetters(l) && IsDecimal(d)
    ensures MatchesIdPattern(l + d)
    ensures Parse(l + d) == Key(Lower(l), Fin(DigitsValue(d)))
  {
    LetterRunOfLetters(l, d);
    assert (l + d)[..|l|] == l && (l + d)[|l|..] == d;
  }

  /** `$` also matches before one final newline, and the key ignores it. */
  lemma ParseFinalNewline(l: string, d: string)
    requires IsLetters(l) && IsDecimal(d)
    ensures MatchesIdPattern(l + d + "\n")
    ensures Parse(l + d + "\n") == Parse(l + d)
  {
    ParseLettersDigits(l, d);
    var e := d + "\n";
    assert l + d + "\n" == l + e;
    LetterRunOfLetters(l, e);
    assert (l + e)[..|l|] == l && (l + e)[|l|..] == e;
    assert DropFinalNewline(e) == d;
  }

  /** Conversely, an identifier gets a finite key only when it has that shape. */
  lemma ParseFiniteShape(s: string)
    requires Parse(s).num.Fin?
    ensures exists l, d :: IsLetters(l) && IsDecimal(d) && (s == l + d || s == l + d + "\n")
                           && Parse(s) == Key(Lower(l), Fin(DigitsValue(d)))
  {
    var n := LetterRun(s);
    var t := s[n..];
    var l := s[..n];
    var d := DropFinalNewline(t);
    assert s == l + t;
    if |t| > 0 && t[|t| - 1] == '\n' {
      assert t == d + "\n";
      assert s == l + d + "\n";
    }
    assert IsLetters(l) && IsDecimal(d);
  }

  // ---------------------------------------------------------------------
  // Keys are totally ordered
  // ---------------------------------------------------------------------

  lemma KeyLtIrreflexive(a: Key)
    ensures !KeyLt(a, a)
  {
    StrLtIrreflexive(a.group);
  }

  lemma KeyLtTransitive(a: Key, b: Key, c: Key)
    requires KeyLt(a, b) && KeyLt(b, c)
    ensures KeyLt(a, c)
  {
    if StrLt(a.group, b.group) && StrLt(b.group, c.group) {
      StrLtTransitive(a.group, b.group, c.group);
    }
  }

  lemma KeyLeTransitive(a: Key, b: Key, c: Key)
    requires KeyLe(a, b) && KeyLe(b, c)
    ensures KeyLe(a, c)
  {
    if a != b && b != c {
      KeyLtTransitive(a, b, c);
    }
  }

  lemma KeyLeTotal(a: Key, b: Key)
    ensures KeyLe(a, b) || KeyLe(b, a)
  {
    StrLtTrichotomy(a.group, b.group);
  }

  lemma KeyLeAntisymmetric(a: Key, b: Key)
    requires KeyLe(a, b) && KeyLe(b, a)
    ensures a == b
  {
    if a != b {
      KeyLtTransitive(a, b, a);
      KeyLtIrreflexive(a);
    }
  }

  /** Two different keys are strictly ordered one way or the other. */
  lemma KeyNotLeIsGreater(a: Key, b: Key)
    requires !KeyLe(a, b)
    ensures KeyLt(b, a)
  {
    KeyLeTotal(a, b);
  }

  // ---------------------------------------------------------------------
  // Consequences for identifiers
  // ---------------------------------------------------------------------

  /**
   * Where the sentinel falls: it sorts after the key of a well-formed identifier
   * exactly when that identifier's lower-cased letters are at most "zzz".
   */
  lemma SentinelPlacement(s: string)
    requires MatchesIdPattern(s)
    ensures KeyLt(Parse(s), Sentinel) <==> StrLe(Parse(s).group, "zzz")
    ensures KeyLt(Sentinel, Parse(s)) <==> StrLt("zzz", Parse(s).group)
  {
    var g := Parse(s).group;
    StrLtTrichotomy(g, "zzz");
    if StrLt(g, "zzz") {
      StrLtAsymmetric(g, "zzz");
    } else if StrLt("zzz", g) {
      StrLtAsymmetric("zzz", g);
    } else {
      StrLtIrreflexive(g);
    }
  }

  /** Letter case is ignored and leading zeros are ignored. */
  lemma EqualKeysExamples()
    ensures Parse("A1") == Parse("a1")
    ensures Parse("a01") == Parse("a1")
  {
    ParseLettersDigits("A", "1");
    ParseLettersDigits("a", "1");
    ParseLettersDigits("a", "01");
    LeadingZeroIgnored("1");
    assert "A" + "1" == "A1" && "a" + "1" == "a1" && "a" + "01" == "a01";
  }

  /** Numbers compare numerically within a group: "a2" before "a10". */
  lemma NumericOrderExample()
    ensures KeyLt(Parse("a2"), Parse("a10"))
  {
    ParseLettersDigits("a", "2");
    ParseLettersDigits("a", "10");
    assert "a" + "2" == "a2" && "a" + "10" == "a10";
  }

  /** Groups compare alphabetically before numbers do: "a10" before "b1". */
  lemma GroupOrderExample()
    ensures KeyLt(Parse("a10"), Parse("b1"))
  {
    ParseLettersDigits("a", "10");
    ParseLettersDigits("b", "1");
    assert "a" + "10" == "a10" && "b" + "1" == "b1";
    assert Lower("a") == "a" && Lower("b") == "b";
  }

  /** The sentinel is not last: "zzz9" sorts before it but "zzzz1" sorts after it. */
  lemma SentinelExamples()
    ensures KeyLt(Parse("zzz9"), Sentinel)
    ensures KeyLt(Sentinel, Parse("zzzz1"))
  {
    ParseLettersDigits("zzz", "9");
    ParseLettersDigits("zzzz", "1");
    assert "zzz" + "9" == "zzz9" && "zzzz" + "1" == "zzzz1";
    assert Lower("zzz") == "zzz" && Lower("zzzz") == "zzzz";
    ProperPrefixIsSmaller("zzz", "zzzz");
  }

  /** Identifiers without the shape, including the blank one, get the sentinel. */
  lemma MalformedExamples()
    ensures Parse("a-1") == Sentinel && Parse("") == Sentinel && Parse("12") == Sentinel
  {
    assert LetterRun("a-1") == 1;
    assert "a-1"[1..] == "-1";
    assert LetterRun("12") == 0;
  }
}

=== FILE: responses.dfy ===
/**
 * The stored shape of a questionnaire response, the question configuration
 * it is read against, and the coercion applied to a rating when it is saved.
 * The JSON keys `rating_<n>` and `open_<n>` (1-based) are modelled by their
 * number `n`.
 */
module Responses {
  import opened Text

  /**
   * A stored rating as JSON holds it: an integer (a JSON boolean also reads
   * as one in Python), a string, or any other JSON value (float, null, list,
   * object), which the heatmap reader and the means treat as missing.
   */
  datatype Value = Int(i: int) | Str(s: string) | Other

  datatype Response = Response(participant: string, ratings: map<nat, Value>, openAnswers: map<nat, string>)

  /** A rating question: its statement and whether its scale runs backwards. */
  datatype Question = Question(statement: string, isNegative: bool)

  /**
   * The configuration the core reads: rating questions, open questions, the
   * rating range `[rangeStart, rangeEnd]` and whether every field must be
   * filled before a save.
   */
  datatype Config = Config(questions: seq<Question>, openQuestions: seq<string>,
                           rangeStart: int, rangeEnd: int, forceRatings: bool)

  /** Slot number `i` is one of 1..n. */
  predicate IsSlot(i: nat, n: nat) {
    1 <= i <= n
  }

  /** The slot numbers 1..n. */
  function Slots(n: nat): set<nat> {
    set i: nat | i <= n && IsSlot(i, n)
  }

  /** The participant numbers of a list of responses, in list order. */
  function Ids(rs: seq<Response>): (ids: seq<string>)
    ensures |ids| == |rs|
    ensures forall j :: 0 <= j < |rs| ==> ids[j] == rs[j].participant
  {
    seq(|rs|, j requires 0 <= j < |rs| => rs[j].participant)
  }

  /** `ratings.get("rating_<i>", "")`: the stored value of rating slot `i`, or "" when absent. */
  function RatingAt(r: Response, i: nat): Value {
    if i in r.ratings then r.ratings[i] else Str("")
  }

  /** `open_answers.get("open_<i>", "")`: the stored text of open slot `i`, or "" when absent. */
  function OpenAt(r: Response, i: nat): string {
    if i in r.openAnswers then r.openAnswers[i] else ""
  }

  /** A freshly created response: empty id and an empty string in every configured slot. */
  function Blank(cfg: Config): (r: Response)
    ensures r.participant == ""
    ensures r.ratings.Keys == Slots(|cfg.questions|) && r.openAnswers.Keys == Slots(|cfg.openQuestions|)
    ensures forall i :: i in r.ratings ==> r.ratings[i] == Str("")
    ensures forall i :: i in r.openAnswers ==> r.openAnswers[i] == ""
  {
    Response("", map i: nat | i <= |cfg.questions| && IsSlot(i, |cfg.questions|) :: Str(""),
                 map i: nat | i <= |cfg.openQuestions| && IsSlot(i, |cfg.openQuestions|) :: "")
  }

  /** A trimmed rating input as it is stored: digits become an integer, anything else stays text. */
  function Coerce(s: string): (v: Value)
    ensures v.Int? <==> IsDecimal(s)
    ensures v.Int? ==> v.i == DigitsValue(s)
    ensures !v.Other?
    ensures v.Str? ==> v.s == s
  {
    if IsDecimal(s) then Int(DigitsValue(s)) else Str(s)
  }

  /**
   * A rating chosen from the drop-down, whose entries are `str(x)` for each x
   * of the range, is stored as the integer x again.
   */
  lemma ChoiceStoredAsInt(x: nat)
    ensures Coerce(Trim(NatToDecimal(x))) == Int(x)
  {
    var s := NatToDecimal(x);
    TrimUnchanged(s);
    DecimalRoundTrip(x);
  }

  /** A stored integer read back by `int(...)` after `str(...)` gives itself; digit text keeps its value. */
  lemma CoerceKeepsValue(s: string)
    requires IsDecimal(s)
    ensures Coerce(s).Int? && NatToDecimal(Coerce(s).i) == s <==> (|s| == 1 || s[0] != '0')
  {
    if |s| == 1 || s[0] != '0' {
      CanonicalRoundTrip(s);
    } else {
      assert NatToDecimal(Coerce(s).i)[0] != '0' || |NatToDecimal(Coerce(s).i)| == 1;
      if NatToDecimal(Coerce(s).i) == s {
        assert false;
      }
    }
  }

  /** The stripped inputs keyed 1..n: the `open_<n>` mapping, and the text behind `rating_<n>`. */
  function StrippedSlots(inputs: seq<string>): (m: map<nat, string>)
    ensures m.Keys == Slots(|inputs|)
    ensures forall i: nat :: IsSlot(i, |inputs|) ==> i in m && m[i] == Trim(inputs[i - 1])
  {
    var t := TrimAll(inputs);
    Keyed(t)
  }

  /** Every input stripped, in order. */
  function TrimAll(inputs: seq<string>): (t: seq<string>)
    ensures |t| == |inputs|
    ensures forall i :: 0 <= i < |inputs| ==> t[i] == Trim(inputs[i])
  {
    seq(|inputs|, i requires 0 <= i < |inputs| => Trim(inputs[i]))
  }

  /** A sequence as a map keyed by 1-based position. */
  function Keyed<V>(vs: seq<V>): (m: map<nat, V>)
    ensures m.Keys == Slots(|vs|)
    ensures forall i: nat :: IsSlot(i, |vs|) ==> i in m && m[i] == vs[i - 1]
  {
    map i: nat | i <= |vs| && IsSlot(i, |vs|) :: vs[i - 1]
  }

  /** The `rating_<n>` mapping: every stripped rating input, coerced. */
  function RatingSlots(inputs: seq<string>): (m: map<nat, Value>)
    ensures m.Keys == Slots(|inputs|)
    ensures forall i: nat :: IsSlot(i, |inputs|) ==> i in m && m[i] == Coerce(Trim(inputs[i - 1]))
  {
    var t := StrippedSlots(inputs);
    map i | i in t :: Coerce(t[i])
  }
}

=== FILE: scores.dfy ===
/**
 * Score normalisation and the heatmap matrix: each configured rating is read
 * (`rating_<n>`, default ""), turned into a number or marked missing, and
 * reflected as `(end + 1) - v` when its question is negative; the heatmap
 * holds one row per question and one column per participant number, the
 * columns sorted by participant key.
 */
module Scores {
  import opened Wrappers
  import opened Text
  import opened ParticipantKey
  import opened Sorting
  import opened Responses
  import Store

  /** An integer passes, a digit string is read with `int(...)`, everything else is missing. */
  function AsScore(v: Value): Option<int> {
    match v
    case Int(n) => Some(n)
    case Str(s) => if IsDecimal(s) then Some(DigitsValue(s)) else None
    case Other => None
  }

  /** The polarity flip applied to a negative question's score. */
  function Reflect(end: int, v: int): int {
    (end + 1) - v
  }

  /** The score of question `q` (0-based) for response `r`. */
  function SlotScore(r: Response, cfg: Config, q: nat): Option<int>
    requires q < |cfg.questions|
  {
    match AsScore(RatingAt(r, q + 1))
    case None => None
    case Some(v) => Some(if cfg.questions[q].isNegative then Reflect(cfg.rangeEnd, v) else v)
  }

  /** The normalised scores of a response, one per configured question. */
  function Normalise(r: Response, cfg: Config): (scores: seq<Option<int>>)
    ensures |scores| == |cfg.questions|
  {
    seq(|cfg.questions|, q requires 0 <= q < |cfg.questions| => SlotScore(r, cfg, q))
  }

  /** A score is missing exactly when its slot is absent or holds neither an integer nor digit text. */
  lemma MissingIff(r: Response, cfg: Config, q: nat)
    requires q < |cfg.questions|
    ensures Normalise(r, cfg)[q].None? <==>
              || q + 1 !in r.ratings
              || r.ratings[q + 1].Other?
              || (r.ratings[q + 1].Str? && !IsDecimal(r.ratings[q + 1].s))
  {
  }

  /** A positive question's score is the stored number; a negative one's reflects back to it. */
  lemma PresentScore(r: Response, cfg: Config, q: nat, v: int)
    requires q < |cfg.questions|
    requires (q + 1 in r.ratings && r.ratings[q + 1] == Int(v))
             || (q + 1 in r.ratings && r.ratings[q + 1].Str? && IsDecimal(r.ratings[q + 1].s)
                 && DigitsValue(r.ratings[q + 1].s) == v)
    ensures Normalise(r, cfg)[q].Some?
    ensures !cfg.questions[q].isNegative ==> Normalise(r, cfg)[q].value == v
    ensures cfg.questions[q].isNegative ==> Reflect(cfg.rangeEnd, Normalise(r, cfg)[q].value) == v
  {
  }

  /** Marking a question negative reflects its present score and leaves a missing one missing. */
  lemma PolarityFlip(r: Response, pos: Config, neg: Config, q: nat)
    requires q < |pos.questions| && |neg.questions| == |pos.questions| && neg.rangeEnd == pos.rangeEnd
    requires !pos.questions[q].isNegative && neg.questions[q].isNegative
    ensures Normalise(r, neg)[q].None? <==> Normalise(r, pos)[q].None?
    ensures Normalise(r, pos)[q].Some? ==>
              Normalise(r, neg)[q].value == Reflect(pos.rangeEnd, Normalise(r, pos)[q].value)
              && Normalise(r, pos)[q].value == Reflect(pos.rangeEnd, Normalise(r, neg)[q].value)
  {
  }

  /** On the scale 1..5 a negative question's raw 2 becomes 4, stored as an integer or as text. */
  lemma ReflectExample(cfg: Config, r: Response, r': Response)
    requires cfg.rangeStart == 1 && cfg.rangeEnd == 5 && |cfg.questions| > 0 && cfg.questions[0].isNegative
    requires 1 in r.ratings && r.ratings[1] == Int(2)
    requires 1 in r'.ratings && r'.ratings[1] == Str("2")
    ensures Normalise(r, cfg)[0] == Some(4) && Normalise(r', cfg)[0] == Some(4)
  {
    assert IsDecimal("2");
    assert DigitsValue("2") == DigitsValue("") * 10 + 2;
  }

  /**
   * The flip `(end + 1) - v` maps the scale start..end onto itself exactly
   * when the scale starts at 1; for other starts it is not a reflection about
   * the scale's midpoint.
   */
  lemma ReflectStaysOnScaleIff(start: int, end: int)
    requires start <= end
    ensures (forall v :: start <= v <= end ==> start <= Reflect(end, v) <= end) <==> start == 1
  {
    if forall v :: start <= v <= end ==> start <= Reflect(end, v) <= end {
      assert start <= Reflect(end, start) <= end;
      assert start <= Reflect(end, end) <= end;
    }
  }

  /**
   * On a scale that starts below zero the drop-down offers `str(-x)`, such as
   * "-1". That text is not digits, so it is saved as text and scores missing.
   */
  lemma NegativeChoiceScoresMissing(x: nat)
    requires x > 0
    ensures var s := "-" + NatToDecimal(x);
            Coerce(Trim(s)) == Str(s) && AsScore(Coerce(Trim(s))).None?
  {
    var d := NatToDecimal(x);
    var s := "-" + d;
    assert s[0] == '-' && s[|s| - 1] == d[|d| - 1];
    TrimUnchanged(s);
    assert !IsDecimal(s);
  }

  /** A blank response's scores are all missing. */
  lemma BlankAllMissing(made: Config, cfg: Config)
    ensures forall q :: 0 <= q < |cfg.questions| ==> Normalise(Blank(made), cfg)[q].None?
  {
  }

  /**
   * After a successful save, a question's score is present exactly when its
   * stripped input was digits; a question with no input on the saved form
   * (added to the configuration later) reads as missing.
   */
  lemma SavedScoreMissingIff(st: Store.State, form: Store.Form, cfg: Config, q: nat)
    requires Store.Valid(st) && Store.SaveCurrent(st, form, cfg).error.None?
    requires q < |cfg.questions|
    ensures var saved := Store.SaveCurrent(st, form, cfg).store.responses[st.cursor];
            && (q < |form.ratings| ==> (Normalise(saved, cfg)[q].None? <==> !IsDecimal(Trim(form.ratings[q]))))
            && (q >= |form.ratings| ==> Normalise(saved, cfg)[q].None?)
  {
    var saved := Store.SaveCurrent(st, form, cfg).store.responses[st.cursor];
    assert saved == Store.SavedResponse(form);
    if q < |form.ratings| {
      assert IsSlot(q + 1, |form.ratings|);
    } else {
      assert q + 1 !in Slots(|form.ratings|);
    }
  }

  // ---------------------------------------------------------------------
  // Scores keyed by participant number, and the heatmap
  // ---------------------------------------------------------------------

  /** Index of the last response whose participant number is `id`. */
  function LastIndexOf(rs: seq<Response>, id: string): (r: Option<nat>)
    ensures r.Some? ==> r.value < |rs| && rs[r.value].participant == id
                        && forall j :: r.value < j < |rs| ==> rs[j].participant != id
    ensures r.None? ==> forall j :: 0 <= j < |rs| ==> rs[j].participant != id
  {
    if rs == [] then None
    else if rs[|rs| - 1].participant == id then Some(|rs| - 1)
    else LastIndexOf(rs[..|rs| - 1], id)
  }

  /** The dictionary of scores by participant number, written in list order (later entries win). */
  function ScoresById(rs: seq<Response>, cfg: Config): (d: map<string, seq<Option<int>>>)
    ensures forall id :: id in d <==> id in Ids(rs)
    ensures forall id :: id in d ==> LastIndexOf(rs, id).Some? && d[id] == Normalise(rs[LastIndexOf(rs, id).value], cfg)
  {
    if rs == [] then map[]
    else
      var init := rs[..|rs| - 1];
      var last := rs[|rs| - 1];
      assert Ids(rs) == Ids(init) + [last.participant];
      ScoresById(init, cfg)[last.participant := Normalise(last, cfg)]
  }

  /** The heatmap's participant axis: all stored participant numbers, stably sorted by key. */
  function HeatmapIds(rs: seq<Response>): (ids: seq<string>)
    ensures multiset(ids) == multiset(Ids(rs))
    ensures SortedBy(ids, Parse)
    ensures forall k :: WithKey(ids, Parse, k) == WithKey(Ids(rs), Parse, k)
  {
    SortIds(Ids(rs))
  }

  /** Every column of the heatmap has a full row of scores in the dictionary. */
  lemma EveryColumnScored(rs: seq<Response>, cfg: Config)
    ensures |HeatmapIds(rs)| == |rs|
    ensures forall p :: 0 <= p < |HeatmapIds(rs)| ==>
              HeatmapIds(rs)[p] in ScoresById(rs, cfg) && |ScoresById(rs, cfg)[HeatmapIds(rs)[p]]| == |cfg.questions|
  {
    var ids := HeatmapIds(rs);
    SortIsPermutation(Ids(rs));
    forall p | 0 <= p < |ids| ensures ids[p] in ScoresById(rs, cfg) {
      assert ids[p] in Ids(rs);
    }
  }

  /** The heatmap matrix, one row per question and one column per entry of `HeatmapIds`. */
  function Heatmap(rs: seq<Response>, cfg: Config): (m: seq<seq<Option<int>>>)
    ensures |m| == |cfg.questions|
    ensures forall q :: 0 <= q < |m| ==> |m[q]| == |rs|
  {
    var ids := HeatmapIds(rs);
    var d := ScoresById(rs, cfg);
    EveryColumnScored(rs, cfg);
    seq(|cfg.questions|, q requires 0 <= q < |cfg.questions| =>
      seq(|ids|, p requires 0 <= p < |ids| => d[ids[p]][q]))
  }

  /**
   * Each heatmap cell is the normalised score of the LAST response carrying
   * that column's participant number, so responses sharing a number all show
   * the last-written scores.
   */
  lemma HeatmapCell(rs: seq<Response>, cfg: Config, q: nat, p: nat)
    requires q < |cfg.questions| && p < |rs|
    ensures p < |HeatmapIds(rs)|
    ensures var id := HeatmapIds(rs)[p];
            LastIndexOf(rs, id).Some?
            && Heatmap(rs, cfg)[q][p] == Normalise(rs[LastIndexOf(rs, id).value], cfg)[q]
  {
    var ids := HeatmapIds(rs);
    var d := ScoresById(rs, cfg);
    SortIsPermutation(Ids(rs));
    assert ids[p] in d;
    assert Heatmap(rs, cfg)[q][p] == d[ids[p]][q];
  }
}

=== FILE: sorting.dfy ===
/**
 * `sorted(ids, key=...)`: Python's sort is stable, so the model is a stable
 * insertion sort by a key function, used with the participant key.
 */
module Sorting {
  import opened ParticipantKey
  import Text

  /** Nondecreasing by `key`. */
  predicate SortedBy(s: seq<string>, key: string -> Key) {
    forall i, j :: 0 <= i < j < |s| ==> KeyLe(key(s[i]), key(s[j]))
  }

  /** The elements of `s` whose key is `k`, in their order in `s`. */
  function WithKey(s: seq<string>, key: string -> Key, k: Key): seq<string> {
    if s == [] then [] else (if key(s[0]) == k then [s[0]] else []) + WithKey(s[1..], key, k)
  }

  /** Puts `x` in front of the first element whose key is not below its own. */
  function Insert(x: string, t: seq<string>, key: string -> Key): (r: seq<string>)
    ensures multiset(r) == multiset(t) + multiset{x}
  {
    if t == [] || KeyLe(key(x), key(t[0])) then
      [x] + t
    else
      assert t == [t[0]] + t[1..];
      [t[0]] + Insert(x, t[1..], key)
  }

  /** `WithKey` of a list with a known head. */
  lemma WithKeyCons(y: string, s: seq<string>, key: string -> Key, k: Key)
    ensures WithKey([y] + s, key, k) == (if key(y) == k then [y] else []) + WithKey(s, key, k)
  {
    assert ([y] + s)[0] == y && ([y] + s)[1..] == s;
  }

  /** An inserted element with key `k` joins the elements with key `k` in front of them. */
  lemma {:induction false} InsertStableSame(x: string, t: seq<string>, key: string -> Key)
    ensures WithKey(Insert(x, t, key), key, key(x)) == [x] + WithKey(t, key, key(x))
  {
    if t == [] || KeyLe(key(x), key(t[0])) {
      WithKeyCons(x, t, key, key(x));
    } else {
      InsertStableSame(x, t[1..], key);
      WithKeyCons(t[0], Insert(x, t[1..], key), key, key(x));
      WithKeyCons(t[0], t[1..], key, key(x));
      assert [t[0]] + t[1..] == t;
    }
  }

  /** An inserted element with another key leaves the elements with key `k` as they were. */
  lemma {:induction false} InsertStableOther(x: string, t: seq<string>, key: string -> Key, k: Key)
    requires key(x) != k
    ensures WithKey(Insert(x, t, key), key, k) == WithKey(t, key, k)
  {
    if t == [] || KeyLe(key(x), key(t[0])) {
      WithKeyCons(x, t, key, k);
    } else {
      InsertStableOther(x, t[1..], key, k);
      WithKeyCons(t[0], Insert(x, t[1..], key), key, k);
      WithKeyCons(t[0], t[1..], key, k);
      assert [t[0]] + t[1..] == t;
    }
  }

  /** Inserting in front of a list whose head is not below the new element keeps it sorted. */
  lemma InsertFrontSorted(x: string, t: seq<string>, key: string -> Key)
    requires SortedBy(t, key) && (t == [] || KeyLe(key(x), key(t[0])))
    ensures SortedBy([x] + t, key)
  {
    var r := [x] + t;
    forall i, j | 0 <= i < j < |r| ensures KeyLe(key(r[i]), key(r[j])) {
      if i == 0 && j > 1 {
        KeyLeTransitive(key(x), key(t[0]), key(t[j - 1]));
      } else if i > 0 {
        assert r[i] == t[i - 1] && r[j] == t[j - 1];
      }
    }
  }

  /** A head that is not above anything in `r` can be put in front of a sorted `r`. */
  lemma ConsSorted(y: string, r: seq<string>, key: string -> Key)
    requires SortedBy(r, key) && forall j :: 0 <= j < |r| ==> KeyLe(key(y), key(r[j]))
    ensures SortedBy([y] + r, key)
  {
    var s := [y] + r;
    forall i, j | 0 <= i < j < |s| ensures KeyLe(key(s[i]), key(s[j])) {
      if i > 0 {
        assert s[i] == r[i - 1] && s[j] == r[j - 1];
      } else {
        assert s[j] == r[j - 1];
      }
    }
  }

  lemma {:induction false} InsertSorted(x: string, t: seq<string>, key: string -> Key)
    requires SortedBy(t, key)
    ensures SortedBy(Insert(x, t, key), key)
  {
    if t == [] || KeyLe(key(x), key(t[0])) {
      InsertFrontSorted(x, t, key);
    } else {
      var t' := t[1..];
      var r' := Insert(x, t', key);
      assert SortedBy(t', key) by {
        forall i, j | 0 <= i < j < |t'| ensures KeyLe(key(t'[i]), key(t'[j])) {
          assert t'[i] == t[i + 1] && t'[j] == t[j + 1];
        }
      }
      InsertSorted(x, t', key);
      KeyNotLeIsGreater(key(x), key(t[0]));
      forall j | 0 <= j < |r'| ensures KeyLe(key(t[0]), key(r'[j])) {
        assert r'[j] in multiset(r');
        if r'[j] != x {
          assert r'[j] in multiset(t');
          var m :| 0 <= m < |t'| && t'[m] == r'[j];
          assert t[m + 1] == r'[j];
        }
      }
      ConsSorted(t[0], r', key);
    }
  }

  /** `sorted(s, key=key)`: insertion of each element, last first, into the sorted rest. */
  function SortBy(s: seq<string>, key: string -> Key): (r: seq<string>)
    ensures multiset(r) == multiset(s)
  {
    if s == [] then []
    else
      assert s == [s[0]] + s[1..];
      Insert(s[0], SortBy(s[1..], key), key)
  }

  lemma {:induction false} SortBySorted(s: seq<string>, key: string -> Key)
    ensures SortedBy(SortBy(s, key), key)
  {
    if s != [] {
      SortBySorted(s[1..], key);
      InsertSorted(s[0], SortBy(s[1..], key), key);
    }
  }

  /** The sort is stable: elements with equal keys keep their input order. */
  lemma {:induction false} SortByStable(s: seq<string>, key: string -> Key, k: Key)
    ensures WithKey(SortBy(s, key), key, k) == WithKey(s, key, k)
  {
    if s != [] {
      SortByStable(s[1..], key, k);
      WithKeyCons(s[0], s[1..], key, k);
      assert [s[0]] + s[1..] == s;
      if key(s[0]) == k {
        InsertStableSame(s[0], SortBy(s[1..], key), key);
      } else {
        InsertStableOther(s[0], SortBy(s[1..], key), key, k);
      }
    }
  }

  /** `sorted(ids, key=participant_sort_key)`. */
  function SortIds(s: seq<string>): (r: seq<string>)
    ensures multiset(r) == multiset(s)
    ensures SortedBy(r, Parse)
    ensures forall k :: WithKey(r, Parse, k) == WithKey(s, Parse, k)
  {
    SortBySorted(s, Parse);
    assert forall k :: WithKey(SortBy(s, Parse), Parse, k) == WithKey(s, Parse, k) by {
      forall k ensures WithKey(SortBy(s, Parse), Parse, k) == WithKey(s, Parse, k) {
        SortByStable(s, Parse, k);
      }
    }
    SortBy(s, Parse)
  }

  /** Sorting is a permutation: same length, same identifiers. */
  lemma SortIsPermutation(s: seq<string>)
    ensures |SortIds(s)| == |s|
    ensures forall x :: x in SortIds(s) <==> x in s
  {
    var r := SortIds(s);
    assert |multiset(r)| == |multiset(s)|;
    forall x ensures x in r <==> x in s {
      assert x in r <==> x in multiset(r);
      assert x in s <==> x in multiset(s);
    }
  }

  /** An element whose key is above every key in `t` goes to the end. */
  lemma {:induction false} InsertAfterAll(x: string, t: seq<string>, key: string -> Key)
    requires forall i :: 0 <= i < |t| ==> KeyLt(key(t[i]), key(x))
    ensures Insert(x, t, key) == t + [x]
  {
    if t != [] {
      if KeyLe(key(x), key(t[0])) {
        KeyLtTransitive(key(t[0]), key(x), key(t[0]));
        KeyLtIrreflexive(key(t[0]));
      }
      InsertAfterAll(x, t[1..], key);
      assert t == [t[0]] + t[1..];
    }
  }

  /** Two elements given in descending key order come out swapped. */
  lemma SortDescendingTwo(b: string, c: string, key: string -> Key)
    requires KeyLt(key(c), key(b))
    ensures SortBy([b, c], key) == [c, b]
  {
    var s := [b, c];
    assert s[1..] == [c] && s[1..][1..] == [];
    InsertAfterAll(b, [c], key);
  }

  /** Three elements given in descending key order come out reversed. */
  lemma SortDescendingThree(a: string, b: string, c: string, key: string -> Key)
    requires KeyLt(key(b), key(a)) && KeyLt(key(c), key(b))
    ensures SortBy([a, b, c], key) == [c, b, a]
  {
    var s := [a, b, c];
    assert s[1..] == [b, c];
    SortDescendingTwo(b, c, key);
    KeyLtTransitive(key(c), key(b), key(a));
    InsertAfterAll(a, [c, b], key);
  }

  /** The list the participant drop-down shows for ids ["b2", "a10", "a2"]. */
  lemma SortExample()
    ensures SortIds(["b2", "a10", "a2"]) == ["a2", "a10", "b2"]
  {
    NumericOrderExample();
    ParseLettersDigits("b", "2");
    assert "b" + "2" == "b2";
    assert Parse("b2").group == Text.Lower("b") == "b";
    assert Parse("a10").group == "a";
    assert KeyLt(Parse("a10"), Parse("b2"));
    SortDescendingThree("b2", "a10", "a2", Parse);
  }
}

=== FILE: store.dfy ===
/**
 * The in-memory response list and its cursor (the index of the response
 * shown in the form), with the operations the form's buttons trigger:
 * start-up, New, Save, Delete (confirmed), Previous, Next, choosing an id in
 * the drop-down, and the sorted id list the drop-down shows.
 */
module Store {
  import opened Wrappers
  import opened Text
  import opened ParticipantKey
  import opened Sorting
  import opened Responses

  /** The response list and the index of the response shown in the form. */
  datatype State = State(responses: seq<Response>, cursor: nat)

  /** Once the application is up, the list is never empty and the cursor points into it. */
  predicate Valid(st: State) {
    0 < |st.responses| && st.cursor < |st.responses|
  }

  /** Appends a blank response and moves the cursor onto it. */
  function NewResponse(st: State, cfg: Config): (r: State)
    ensures |r.responses| == |st.responses| + 1
    ensures r.responses[..|st.responses|] == st.responses
    ensures r.cursor == |st.responses| && r.responses[r.cursor] == Blank(cfg)
    ensures Valid(r)
  {
    State(st.responses + [Blank(cfg)], |st.responses|)
  }

  /** Start-up: the loaded list with the cursor at 0, or a single blank response when nothing was loaded. */
  function Init(loaded: seq<Response>, cfg: Config): (r: State)
    ensures Valid(r)
    ensures loaded != [] ==> r.responses == loaded && r.cursor == 0
    ensures loaded == [] ==> r.responses == [Blank(cfg)] && r.cursor == 0
  {
    if loaded == [] then NewResponse(State([], 0), cfg) else State(loaded, 0)
  }

  /** The confirmed Delete: removes the current response, then clamps the cursor or starts over blank. */
  function DeleteCurrent(st: State, cfg: Config): (r: State)
    requires Valid(st)
    ensures Valid(r)
    ensures |st.responses| == 1 ==> r.responses == [Blank(cfg)] && r.cursor == 0
    ensures |st.responses| > 1 ==>
              && |r.responses| == |st.responses| - 1
              && r.cursor == (if st.cursor < |st.responses| - 1 then st.cursor else |st.responses| - 2)
              && (forall j :: 0 <= j < st.cursor ==> r.responses[j] == st.responses[j])
              && (forall j :: st.cursor <= j < |r.responses| ==> r.responses[j] == st.responses[j + 1])
  {
    var rest := st.responses[..st.cursor] + st.responses[st.cursor + 1..];
    if rest != [] then
      State(rest, if st.cursor < |rest| - 1 then st.cursor else |rest| - 1)
    else
      NewResponse(State(rest, st.cursor), cfg)
  }

  /** Deleting removes exactly the current response, nothing else. */
  lemma DeleteRemovesCurrent(st: State, cfg: Config)
    requires Valid(st) && |st.responses| > 1
    ensures multiset(DeleteCurrent(st, cfg).responses) + multiset{st.responses[st.cursor]}
            == multiset(st.responses)
  {
    var c := st.cursor;
    var rs := st.responses;
    assert rs == rs[..c] + [rs[c]] + rs[c + 1..];
    assert DeleteCurrent(st, cfg).responses == rs[..c] + rs[c + 1..];
  }

  /** Previous: one step back, or nothing at the first response. */
  function Previous(st: State): (r: State)
    ensures r.responses == st.responses
    ensures st.cursor > 0 ==> r.cursor == st.cursor - 1
    ensures st.cursor == 0 ==> r == st
    ensures Valid(st) ==> Valid(r)
  {
    if st.cursor > 0 then st.(cursor := st.cursor - 1) else st
  }

  /** Next: one step forward, or nothing at the last response. */
  function Next(st: State): (r: State)
    ensures r.responses == st.responses
    ensures st.cursor + 1 < |st.responses| ==> r.cursor == st.cursor + 1
    ensures st.cursor + 1 >= |st.responses| ==> r == st
    ensures Valid(st) ==> Valid(r)
  {
    if st.cursor < |st.responses| - 1 then st.(cursor := st.cursor + 1) else st
  }

  /** Stepping forward then back, away from the last response, returns to the same place. */
  lemma PreviousUndoesNext(st: State)
    requires Valid(st) && st.cursor + 1 < |st.responses|
    ensures Previous(Next(st)) == st
  {
  }

  /** Stepping back then forward, away from the first response, returns to the same place. */
  lemma NextUndoesPrevious(st: State)
    requires Valid(st) && st.cursor > 0
    ensures Next(Previous(st)) == st
  {
  }

  /** Index of the first response whose participant number is exactly `id`. */
  function FirstIndexOf(rs: seq<Response>, id: string): (r: Option<nat>)
    ensures r.Some? ==> r.value < |rs| && rs[r.value].participant == id
                        && forall j :: 0 <= j < r.value ==> rs[j].participant != id
    ensures r.None? ==> forall j :: 0 <= j < |rs| ==> rs[j].participant != id
  {
    if rs == [] then None
    else if rs[0].participant == id then Some(0)
    else
      match FirstIndexOf(rs[1..], id)
      case None => None
      case Some(i) => Some(i + 1)
  }

  /** Choosing an id in the drop-down moves the cursor to its first occurrence, if any. */
  function SelectParticipant(st: State, id: string): (r: State)
    ensures r.responses == st.responses
    ensures Valid(st) ==> Valid(r)
    ensures (forall j :: 0 <= j < |st.responses| ==> st.responses[j].participant != id) ==> r == st
    ensures (exists j :: 0 <= j < |st.responses| && st.responses[j].participant == id) ==>
              && r.cursor < |st.responses|
              && st.responses[r.cursor].participant == id
              && (forall j :: 0 <= j < r.cursor ==> st.responses[j].participant != id)
  {
    match FirstIndexOf(st.responses, id)
    case None => st
    case Some(i) => st.(cursor := i)
  }

  /** The drop-down's list: every stored participant number once per response, sorted by key. */
  function ParticipantList(st: State): (ids: seq<string>)
    ensures multiset(ids) == multiset(Ids(st.responses))
    ensures SortedBy(ids, Parse)
    ensures forall k :: WithKey(ids, Parse, k) == WithKey(Ids(st.responses), Parse, k)
  {
    SortIds(Ids(st.responses))
  }

  // ---------------------------------------------------------------------
  // Save
  // ---------------------------------------------------------------------

  /** The raw contents of the form: id entry, one text per rating question, one per open question. */
  datatype Form = Form(participant: string, ratings: seq<string>, opens: seq<string>)

  datatype SaveError = InvalidParticipantId | MissingRating | MissingOpenAnswer

  /** The store after a save attempt and the error that blocked it, if any. */
  datatype SaveOutcome = SaveOutcome(store: State, error: Option<SaveError>)

  /** Every input is non-empty once stripped. */
  predicate AllFilled(inputs: seq<string>) {
    forall i :: 0 <= i < |inputs| ==> Trim(inputs[i]) != ""
  }

  /**
   * The checks Save runs before touching anything, in order: the stripped id
   * against the identifier pattern, then (only with `forceRatings`) every
   * rating, then every open answer, each stripped, for emptiness.
   */
  function CheckForm(form: Form, force: bool): (e: Option<SaveError>)
    ensures e == Some(InvalidParticipantId) <==> !MatchesIdPattern(Trim(form.participant))
    ensures e == Some(MissingRating) <==>
              MatchesIdPattern(Trim(form.participant)) && force && !AllFilled(form.ratings)
    ensures e == Some(MissingOpenAnswer) <==>
              && MatchesIdPattern(Trim(form.participant)) && force
              && AllFilled(form.ratings) && !AllFilled(form.opens)
    ensures e.None? <==>
              MatchesIdPattern(Trim(form.participant)) && (!force || (AllFilled(form.ratings) && AllFilled(form.opens)))
  {
    if !MatchesIdPattern(Trim(form.participant)) then Some(InvalidParticipantId)
    else if force && !AllFilled(form.ratings) then Some(MissingRating)
    else if force && !AllFilled(form.opens) then Some(MissingOpenAnswer)
    else None
  }

  /** The response a passing save writes: stripped id, coerced ratings, stripped open answers. */
  function SavedResponse(form: Form): (r: Response)
    ensures r.participant == Trim(form.participant)
    ensures r.ratings.Keys == Slots(|form.ratings|) && r.openAnswers.Keys == Slots(|form.opens|)
    ensures forall i: nat :: IsSlot(i, |form.ratings|) ==> r.ratings[i] == Coerce(Trim(form.ratings[i - 1]))
    ensures forall i: nat :: IsSlot(i, |form.opens|) ==> r.openAnswers[i] == Trim(form.opens[i - 1])
  {
    Response(Trim(form.participant), RatingSlots(form.ratings), StrippedSlots(form.opens))
  }

  /** Overwrites the current response, leaving the others and the cursor alone. */
  function ReplaceCurrent(st: State, resp: Response): (r: State)
    requires Valid(st)
    ensures Valid(r) && |r.responses| == |st.responses| && r.cursor == st.cursor
    ensures r.responses[st.cursor] == resp
    ensures forall j :: 0 <= j < |st.responses| && j != st.cursor ==> r.responses[j] == st.responses[j]
  {
    st.(responses := st.responses[st.cursor := resp])
  }

  /**
   * Save: when the checks pass, the current response is replaced as a whole
   * by `SavedResponse(form)`; when one fails, nothing changes.
   */
  function SaveCurrent(st: State, form: Form, cfg: Config): (r: SaveOutcome)
    requires Valid(st)
    ensures Valid(r.store)
    ensures r.error == CheckForm(form, cfg.forceRatings)
    ensures r.error.Some? ==> r.store == st
    ensures r.error.None? ==> r.store == ReplaceCurrent(st, SavedResponse(form))
  {
    var e := CheckForm(form, cfg.forceRatings);
    if e.Some? then SaveOutcome(st, e) else SaveOutcome(ReplaceCurrent(st, SavedResponse(form)), None)
  }

  /** A saved participant number always gets a real key, never the sentinel. */
  lemma SavedIdHasFiniteKey(st: State, form: Form, cfg: Config)
    requires Valid(st) && SaveCurrent(st, form, cfg).error.None?
    ensures Parse(SaveCurrent(st, form, cfg).store.responses[st.cursor].participant).num.Fin?
  {
  }

  /** Saving the same form twice leaves the store as saving it once did. */
  lemma SaveIdempotent(st: State, form: Form, cfg: Config)
    requires Valid(st)
    ensures SaveCurrent(SaveCurrent(st, form, cfg).store, form, cfg) == SaveCurrent(st, form, cfg)
  {
  }

  /** With forced answers, a whitespace-only rating blocks the save and the store is untouched. */
  lemma ForcedBlankRatingRejected(st: State, form: Form, cfg: Config, i: nat)
    requires Valid(st) && cfg.forceRatings && MatchesIdPattern(Trim(form.participant))
    requires i < |form.ratings| && forall k :: 0 <= k < |form.ratings[i]| ==> IsSpace(form.ratings[i][k])
    ensures SaveCurrent(st, form, cfg) == SaveOutcome(st, Some(MissingRating))
  {
    TrimEmptyIff(form.ratings[i]);
  }

  /** Without forced answers, any form with a well-formed id is saved. */
  lemma UnforcedSaveAccepts(st: State, form: Form, cfg: Config)
    requires Valid(st) && !cfg.forceRatings
    ensures SaveCurrent(st, form, cfg).error.None? <==> MatchesIdPattern(Trim(form.participant))
  {
  }
}

=== FILE: text.dfy ===
/**
 * The string primitives the questionnaire relies on: Python's `str.strip`,
 * `str.isdigit`, `int(...)`, `str(...)` on naturals, `str.lower` on letters,
 * and Python's ordering of strings (code point by code point, a proper
 * prefix first).
 */
module Text {

  /** Python's `str.isspace`: the characters `str.strip()` removes. */
  predicate IsSpace(c: char) {
    var n := c as int;
    (9 <= n <= 13) || (0x1C <= n <= 0x20) || n == 0x85 || n == 0xA0 || n == 0x1680
    || (0x2000 <= n <= 0x200A) || n == 0x2028 || n == 0x2029 || n == 0x202F
    || n == 0x205F || n == 0x3000
  }

  /** An ASCII decimal digit (the only digits this model admits). */
  predicate IsDigit(c: char) {
    '0' <= c <= '9'
  }

  /** A character of the regular-expression class `[a-zA-Z]`. */
  predicate IsLetter(c: char) {
    ('a' <= c <= 'z') || ('A' <= c <= 'Z')
  }

  predicate AllDigits(s: string) {
    forall i :: 0 <= i < |s| ==> IsDigit(s[i])
  }

  /** Python's `s.isdigit()` on ASCII text: non-empty and all digits. */
  predicate IsDecimal(s: string) {
    |s| > 0 && AllDigits(s)
  }

  /** One or more letters of `[a-zA-Z]`. */
  predicate IsLetters(s: string) {
    |s| > 0 && forall i :: 0 <= i < |s| ==> IsLetter(s[i])
  }

  // ---------------------------------------------------------------------
  // str.strip()
  // ---------------------------------------------------------------------

  /** Drops leading whitespace: the result is the suffix of `s` after its whitespace run. */
  function TrimStart(s: string): (r: string)
    ensures |r| <= |s| && r == s[|s| - |r|..]
    ensures forall k :: 0 <= k < |s| - |r| ==> IsSpace(s[k])
    ensures |r| > 0 ==> !IsSpace(r[0])
  {
    if |s| > 0 && IsSpace(s[0]) then TrimStart(s[1..]) else s
  }

  /** Drops trailing whitespace: the result is the prefix of `s` before its whitespace run. */
  function TrimEnd(s: string): (r: string)
    ensures |r| <= |s| && r == s[..|r|]
    ensures forall k :: |r| <= k < |s| ==> IsSpace(s[k])
    ensures |r| > 0 ==> !IsSpace(r[|r| - 1])
  {
    if |s| > 0 && IsSpace(s[|s| - 1]) then TrimEnd(s[..|s| - 1]) else s
  }

  /** Python's `s.strip()`. */
  function Trim(s: string): (r: string)
    ensures |r| <= |s|
    ensures |r| > 0 ==> !IsSpace(r[0]) && !IsSpace(r[|r| - 1])
  {
    TrimEnd(TrimStart(s))
  }

  /** `r` occurs in `s` at offset `a`, with only whitespace before and after it. */
  predicate InnerSliceAt(s: string, r: string, a: nat) {
    && a + |r| <= |s| && r == s[a..a + |r|]
    && (forall k :: 0 <= k < a ==> IsSpace(s[k]))
    && (forall k :: a + |r| <= k < |s| ==> IsSpace(s[k]))
  }

  /** Stripping removes whitespace at the two ends and nothing else. */
  lemma TrimIsInnerSlice(s: string)
    ensures exists a :: InnerSliceAt(s, Trim(s), a)
  {
    var t := TrimStart(s);
    var r := Trim(s);
    var a := |s| - |t|;
    assert |r| <= |t| && s[a..] == t;
    assert r == t[..|r|];
    assert t[..|r|] == s[a..a + |r|];
    forall k | a + |r| <= k < |s| ensures IsSpace(s[k]) {
      assert s[k] == t[k - a];
    }
    assert InnerSliceAt(s, r, a);
  }

  /** Stripping leaves nothing exactly when the text is all whitespace. */
  lemma TrimEmptyIff(s: string)
    ensures Trim(s) == "" <==> forall k :: 0 <= k < |s| ==> IsSpace(s[k])
  {
    var t := TrimStart(s);
    if Trim(s) == "" {
      assert |t| == 0;
    } else {
      var r := Trim(s);
      assert t[0] == r[0];
      assert s[|s| - |t|] == t[0];
    }
  }

  /** Text that already has no surrounding whitespace is left as it is. */
  lemma TrimUnchanged(s: string)
    requires |s| > 0 ==> !IsSpace(s[0]) && !IsSpace(s[|s| - 1])
    ensures Trim(s) == s
  {
  }

  /** Stripping twice is stripping once. */
  lemma TrimIdempotent(s: string)
    ensures Trim(Trim(s)) == Trim(s)
  {
    TrimUnchanged(Trim(s));
  }

  // ---------------------------------------------------------------------
  // int(...) and str(...) on naturals
  // ---------------------------------------------------------------------

  function DigitValue(c: char): (d: nat)
    requires IsDigit(c)
    ensures d < 10
  {
    (c as int) - ('0' as int)
  }

  function DigitChar(d: nat): (c: char)
    requires d < 10
    ensures IsDigit(c) && DigitValue(c) == d
  {
    (('0' as int) + d) as char
  }

  /** Python's `int(s)` on a string of ASCII digits (the empty string gives 0). */
  function DigitsValue(s: string): nat
    requires AllDigits(s)
  {
    if |s| == 0 then 0 else 10 * DigitsValue(s[..|s| - 1]) + DigitValue(s[|s| - 1])
  }

  /** Python's `str(n)` on a natural number. */
  function NatToDecimal(n: nat): (s: string)
    ensures IsDecimal(s)
    ensures |s| > 1 ==> s[0] != '0'
  {
    if n < 10 then [DigitChar(n)] else NatToDecimal(n / 10) + [DigitChar(n % 10)]
  }

  /** `int(str(n)) == n`. */
  lemma {:induction false} DecimalRoundTrip(n: nat)
    ensures DigitsValue(NatToDecimal(n)) == n
  {
    if n >= 10 {
      var s := NatToDecimal(n);
      DecimalRoundTrip(n / 10);
      assert s[..|s| - 1] == NatToDecimal(n / 10);
    }
  }

  /** Different naturals print differently. */
  lemma DecimalInjective(a: nat, b: nat)
    requires NatToDecimal(a) == NatToDecimal(b)
    ensures a == b
  {
    DecimalRoundTrip(a);
    DecimalRoundTrip(b);
  }

  /** A digit string with a non-zero first digit has a positive value. */
  lemma {:induction false} LeadingNonZeroPositive(s: string)
    requires IsDecimal(s) && s[0] != '0'
    ensures DigitsValue(s) > 0
  {
    if |s| > 1 {
      var p := s[..|s| - 1];
      assert p[0] == s[0];
      LeadingNonZeroPositive(p);
    }
  }

  /** `str(int(s)) == s` for a digit string without superfluous leading zeros. */
  lemma {:induction false} CanonicalRoundTrip(s: string)
    requires IsDecimal(s) && (|s| == 1 || s[0] != '0')
    ensures NatToDecimal(DigitsValue(s)) == s
  {
    if |s| > 1 {
      var p := s[..|s| - 1];
      assert p[0] == s[0];
      LeadingNonZeroPositive(p);
      CanonicalRoundTrip(p);
      var n := DigitsValue(s);
      assert n / 10 == DigitsValue(p) && n % 10 == DigitValue(s[|s| - 1]);
      assert s == p + [s[|s| - 1]];
    }
  }

  /** Leading zeros do not change the value `int(...)` reads. */
  lemma {:induction false} LeadingZeroIgnored(s: string)
    requires AllDigits(s)
    ensures AllDigits("0" + s) && DigitsValue("0" + s) == DigitsValue(s)
  {
    var z := "0" + s;
    assert AllDigits(z) by {
      forall i | 0 <= i < |z| ensures IsDigit(z[i]) {
        if i > 0 { assert z[i] == s[i - 1]; }
      }
    }
    if |s| > 0 {
      var p := s[..|s| - 1];
      LeadingZeroIgnored(p);
      assert z[..|z| - 1] == "0" + p;
    }
  }

  // ---------------------------------------------------------------------
  // str.lower() on letters
  // ---------------------------------------------------------------------

  function LowerChar(c: char): char {
    if 'A' <= c <= 'Z' then ((c as int) + 32) as char else c
  }

  /** Python's `s.lower()` restricted to ASCII letters (other characters unchanged). */
  function Lower(s: string): string {
    seq(|s|, i requires 0 <= i < |s| => LowerChar(s[i]))
  }

  // ---------------------------------------------------------------------
  // Python's ordering of strings
  // ---------------------------------------------------------------------

  /** Python's `a < b` on strings: first differing code point decides, a proper prefix is smaller. */
  predicate StrLt(a: string, b: string) {
    if |a| == 0 then |b| > 0
    else if |b| == 0 then false
    else a[0] < b[0] || (a[0] == b[0] && StrLt(a[1..], b[1..]))
  }

  /** Python's `a <= b` on strings. */
  predicate StrLe(a: string, b: string) {
    a == b || StrLt(a, b)
  }

  lemma {:induction false} StrLtIrreflexive(a: string)
    ensures !StrLt(a, a)
  {
    if |a| > 0 {
      StrLtIrreflexive(a[1..]);
    }
  }

  lemma {:induction false} StrLtTransitive(a: string, b: string, c: string)
    requires StrLt(a, b) && StrLt(b, c)
    ensures StrLt(a, c)
  {
    if |a| > 0 && a[0] == b[0] && b[0] == c[0] {
      StrLtTransitive(a[1..], b[1..], c[1..]);
    }
  }

  lemma {:induction false} StrLtTrichotomy(a: string, b: string)
    ensures a == b || StrLt(a, b) || StrLt(b, a)
  {
    if |a| > 0 && |b| > 0 && a[0] == b[0] {
      StrLtTrichotomy(a[1..], b[1..]);
      if a[1..] == b[1..] {
        assert a == [a[0]] + a[1..] && b == [b[0]] + b[1..];
      }
    }
  }

  lemma StrLtAsymmetric(a: string, b: string)
    requires StrLt(a, b)
    ensures !StrLt(b, a)
  {
    if StrLt(b, a) {
      StrLtTransitive(a, b, a);
      StrLtIrreflexive(a);
    }
  }

  /** A proper prefix sorts first: for instance "zzz" < "zzzz". */
  lemma {:induction false} ProperPrefixIsSmaller(a: string, b: string)
    requires |a| < |b| && a == b[..|a|]
    ensures StrLt(a, b)
  {
    if |a| > 0 {
      assert a[1..] == b[1..][..|a| - 1];
      ProperPrefixIsSmaller(a[1..], b[1..]);
    }
  }
}

=== FILE: visualization.dfy ===
/** What the Visualize button computes before anything is drawn. */
module Visualization {
  import opened Wrappers
  import opened Responses
  import opened Scores
  import opened BoxPlot
  import Sorting

  /** The box-plot groups, the heatmap's participant axis and the heatmap matrix. */
  datatype Charts = Charts(boxes: seq<BoxGroup>, heatmapIds: seq<string>, heatmap: seq<seq<Option<int>>>)

  /** Nothing to show for an empty list; otherwise both charts' data. */
  function Visualize(rs: seq<Response>, cfg: Config): (c: Option<Charts>)
    ensures c.None? <==> rs == []
    ensures c.Some? ==> |c.value.heatmap| == |cfg.questions|
                        && |c.value.heatmapIds| == |rs|
                        && forall q :: 0 <= q < |cfg.questions| ==> |c.value.heatmap[q]| == |c.value.heatmapIds|
  {
    if rs == [] then None
    else
      Sorting.SortIsPermutation(Ids(rs));
      Some(Charts(BoxGroups(rs, cfg), HeatmapIds(rs), Heatmap(rs, cfg)))
  }
}

=== FILE: wrappers.dfy ===
/** The optional value used across the questionnaire model. */
module Wrappers {

  /** A value that may be missing (Python's `None`, pandas' `NaN`). */
  datatype Option<+T> = None | Some(value: T)
}
